=== FILE: README.md ===
# Habit tracker: store and calendar computations in Dafny

This project models the core of a personal habit tracker. Users define habits and record one
check-in per habit per calendar day. A check-in has a completion flag, an optional repetition
count (`value`) and an optional note. The app shows a current streak, a 7-day strip and a
16-week heatmap.

The model has five modules:

- `HabitTypes` (`types.dfy`): habits, check-in records and the two-level check-in map
  (habit id → day → record). The datatypes `Habit`, `CheckIn` and the type `CheckInsMap`
  follow `Habit`, `CheckIn` and `CheckInsMap` in src/store/useHabitStore.ts:16-52, using the
  later, extended declarations that add `value` and `theme`. Calendar dates are integer day numbers, with day 0 a Sunday, so
  the weekday of `d` is `d % 7`. A record's `value` and `note` are optional, as in the stored
  JSON.
- `HabitStore` (`store.dfy`): every store action as a pure transition over
  `State(habits, checkIns)`. These are add, update, delete, reorder, toggle, set value,
  update note, import and reset. The fresh id, the creation instant and the clock reading
  `now` are parameters.
- `StoreProperties` (`store_properties.dfy`) covers several things:
  - The tombstone-by-absence invariant: a record is stored iff it is completed or carries a
    non-empty note, and `completed == value > 0`. It holds over any sequence of store actions
    that starts from a state that keeps it and imports only check-ins that keep it; `importData`
    itself installs any payload.
  - Toggling a day twice.
  - Delete keeps the order of the remaining habits.
  - Update is idempotent.
- `HabitCard` (`habit_card.dfy`): the 7-day strip and the current streak. The streak is
  computed both as a recursive run length and as the card's backward `while` loop. The loop
  is proved to terminate on every finite map.
- `Heatmap` (`heatmap.dfy`): the 16-week Sunday-aligned window, the per-cell flags and the
  click dispatch.
- `Themes` (`themes.dfy`): the six themes and the case-insensitive lookup with its fallback.

## Model

| member | source | states |
|---|---|---|
| HabitTypes.Inner | src/store/useHabitStore.ts:33 | a habit's day map in `CheckInsMap`: the stored map when the habit has one, otherwise the empty map (`checkIns[id] \|\| {}`, line 109) |
| HabitTypes.ValueOrZero | src/store/useHabitStore.ts:36-41 | the model's own reading of the optional `value` field declared there (no line of the source reads it): the stored number, or 0 when absent; `Consistent` is stated through it |
| HabitTypes.ConsistentIffValuePositive | src/store/useHabitStore.ts:36-41 | a `CheckIn` is consistent exactly when it is completed iff its value (absent read as 0) is positive |
| HabitStore.ThemeOrDefault | src/store/useHabitStore.ts:86 | an absent or empty theme becomes `blue`; a non-empty theme is kept; the result is never empty |
| HabitStore.AddHabit | src/store/useHabitStore.ts:77-89 | exactly one habit is appended at the end; earlier habits and all check-ins are unchanged; the new habit carries the given id and creation instant, `archived = false`, the caller's fields, and a non-empty theme defaulting to `blue` |
| HabitStore.Merge | src/store/useHabitStore.ts:92 | `{ ...h, ...updates }`: each field present in the patch overwrites the habit's, each absent field keeps it; an empty patch leaves the habit unchanged |
| HabitStore.UpdateHabit | src/store/useHabitStore.ts:91-93 | the length is preserved; habits with another id are untouched; every habit with the id receives the merged patch; check-ins are unchanged |
| HabitStore.RemoveById | src/store/useHabitStore.ts:99 | a habit survives the filter iff it was in the list and has a different id |
| HabitStore.DeleteHabit | src/store/useHabitStore.ts:95-102 | no habit with the id remains and every other habit does; the id's check-in map is gone; every other habit's map is present and identical |
| HabitStore.ReorderHabits | src/store/useHabitStore.ts:104-106 | the habit list becomes the given list verbatim; check-ins are untouched |
| HabitStore.Put | src/store/useHabitStore.ts:122-128 | tombstone by absence: the day is present iff the new record is completed or noted, it then holds that record, and all other days are unchanged |
| HabitStore.Write | src/store/useHabitStore.ts:122-135 | the record is written under the tombstone rule; only that habit's entry for that day can change; the habit's map exists afterwards |
| HabitStore.ToggleCheckIn | src/store/useHabitStore.ts:108-136 | completion flips; a not-completed day becomes `{true, 1}` with its note kept; a completed day becomes `{false, 0}` and stays only if it has a non-empty note; nothing else changes |
| HabitStore.SetCheckInValue | src/store/useHabitStore.ts:138-166 | the value is stored exactly as given, with no clamping; `completed = value > 0`; the note is kept; the entry exists iff `value > 0` or there is a note; nothing else changes |
| HabitStore.UpdateNote | src/store/useHabitStore.ts:168-192 | an existing record keeps completion and value and gets the new note and timestamp; a missing one is created as `{false, 0, note}`; the entry exists iff the day was completed or the note is non-empty; nothing else changes |
| HabitStore.ImportData | src/store/useHabitStore.ts:194-197 | both collections are replaced by the payload, with no merge |
| HabitStore.ResetData | src/store/useHabitStore.ts:199-202 | both collections become empty |
| StoreProperties.WritePreservesInv | src/store/useHabitStore.ts:122-128 | writing a consistent record keeps every stored record live and consistent |
| StoreProperties.ToggleCheckInPreservesInv | src/store/useHabitStore.ts:108-136 | toggling keeps the invariant: present iff completed or noted, and `completed == value > 0` |
| StoreProperties.SetCheckInValuePreservesInv | src/store/useHabitStore.ts:138-166 | setting a value keeps the invariant |
| StoreProperties.UpdateNotePreservesInv | src/store/useHabitStore.ts:168-192 | editing a note keeps the invariant |
| StoreProperties.StepPreservesInv | src/store/useHabitStore.ts:77-202 | every store action keeps the invariant; an import needs a payload that already keeps it |
| StoreProperties.RunPreservesInv | src/store/useHabitStore.ts:73-202 | after any sequence of store actions from an invariant state, importing only well-formed payloads, every stored record is completed or noted and agrees with its value |
| StoreProperties.EmptyKeepsInv | src/store/useHabitStore.ts:74-75 | the initial empty store and a reset store satisfy the invariant |
| StoreProperties.ImportCanBreakInv | src/store/useHabitStore.ts:194-197 | import installs any payload unchecked: importing one uncompleted, un-noted record into the empty store breaks the invariant |
| StoreProperties.StoredIffCompletedOrNoted | src/store/useHabitStore.ts:124-128 | under the invariant, a day is stored exactly when it is completed or has a non-empty note |
| StoreProperties.ToggleTwiceNoNote | src/store/useHabitStore.ts:108-136 | two toggles of an un-noted day restore its completion, leave no entry if it was not completed (the habit's map may stay, empty), and change no other day, habit map or habit |
| StoreProperties.AddThenDelete | src/store/useHabitStore.ts:77-102 | adding a habit under an id no habit or check-in map uses and then deleting that id gives back the original state |
| StoreProperties.RemoveByIdAppend | src/store/useHabitStore.ts:99 | the filter distributes over concatenation, so the remaining habits keep their relative order |
| StoreProperties.RemoveByIdAbsent | src/store/useHabitStore.ts:99 | deleting an id no habit carries leaves the list unchanged |
| StoreProperties.RemoveByIdCount | src/store/useHabitStore.ts:99 | every habit with another id keeps its number of occurrences |
| StoreProperties.UpdateHabitUnknownId | src/store/useHabitStore.ts:91-93 | an update for an unknown id leaves the whole state unchanged |
| StoreProperties.MergeIdempotent | src/store/useHabitStore.ts:92 | merging the same patch twice equals merging it once |
| StoreProperties.UpdateHabitIdempotent | src/store/useHabitStore.ts:91-93 | applying the same update twice equals applying it once |
| StoreProperties.ReorderDropsMissingHabit | src/store/useHabitStore.ts:104-106 | reorder does not check the id set: for every state and every order that omits one of its habits, that habit is gone afterwards, and check-ins are kept |
| StoreProperties.ImportIgnoresPriorState | src/store/useHabitStore.ts:194-197 | the state after an import does not depend on the state it replaced |
| StoreProperties.ImportOfExportRoundTrip | src/store/useHabitStore.ts:194-197 | importing a state's own collections reproduces that state exactly |
| StoreProperties.ResetIsEmptyImport | src/store/useHabitStore.ts:199-202 | reset equals importing empty collections, and the reset store keeps the invariant |
| HabitCard.Last7Days | src/components/HabitCard.tsx:19-26 | seven consecutive ascending days ending at today; a day is in the strip iff it lies in `[today-6, today]` |
| HabitCard.WeekStrip | src/components/HabitCard.tsx:63-65 | seven cells over those days; a cell is completed iff its day's record is completed; only the last cell is today |
| HabitCard.RunLength | src/components/HabitCard.tsx:39-47 | the maximal run: every day in `(d-n, d]` is completed, day `d-n` is not, and `n` is at most the number of completed days up to `d` |
| HabitCard.RunLengthUnique | src/components/HabitCard.tsx:39-47 | any `n` with those two facts equals the run length, so the run is determined |
| HabitCard.RunLengthLocal | src/components/HabitCard.tsx:39-47 | the run ending at `d` depends only on the days up to `d` |
| HabitCard.StreakStart | src/components/HabitCard.tsx:33-37 | the walk starts at today if today is completed, otherwise at yesterday |
| HabitCard.CurrentStreak | src/components/HabitCard.tsx:32-47 | maximal run ending at the start day; it is 0 iff neither today nor yesterday is completed; an unchecked today gives the run ending yesterday; it never exceeds the number of completed records |
| HabitCard.ComputeCurrentStreak | src/components/HabitCard.tsx:32-47 | the card's `while` loop terminates on every finite map and returns the maximal run ending at the start day, equal to `CurrentStreak` |
| HabitCard.CurrentStreakIgnoresFuture | src/components/HabitCard.tsx:33-47 | records after today never change the current streak |
| HabitCard.CheckingInTodayExtendsStreak | src/components/HabitCard.tsx:33-47 | toggling an unchecked today raises the streak by exactly one |
| HabitCard.StreakExampleToday | src/components/HabitCard.tsx:32-47 | with completions on days 1, 2, 3 and 5 and today = 5, the streak is 1 |
| HabitCard.StreakExampleYesterday | src/components/HabitCard.tsx:34-37 | with the same history and an unchecked today = 6, the streak is still 1 |
| HabitCard.StreakExampleRun | src/components/HabitCard.tsx:34-47 | with the same history and today = 4, the streak falls back to the run 1..3 and is 3 |
| HabitCard.StreakExampleBroken | src/components/HabitCard.tsx:35-45 | with neither today = 8 nor yesterday completed, the streak is 0 |
| Heatmap.StartOfWeek | src/components/HabitHeatmap.tsx:19 | the Sunday on or before the day |
| Heatmap.EndOfWeek | src/components/HabitHeatmap.tsx:20 | the Saturday on or after the day |
| Heatmap.WindowDays | src/components/HabitHeatmap.tsx:19-22 | 112 consecutive ascending days from the Sunday 15 weeks before today's week to the Saturday of today's week; day i has weekday `i % 7`, matching the Sun…Sat rows; today sits at index `105 + weekday(today)` |
| Heatmap.TodayInWindow | src/components/HabitHeatmap.tsx:19-22 | today always lies inside the window |
| Heatmap.HeatmapCells | src/components/HabitHeatmap.tsx:85-92 | one cell per window day; future iff after today's cell; completed and has-note come only from that habit's map, with a non-empty note required; a habit with no map shows every cell empty |
| Heatmap.FutureCellsEndTheWindow | src/components/HabitHeatmap.tsx:91 | the cells up to today are not future; the `6 - weekday(today)` cells after it are |
| Heatmap.HandleDayClick | src/components/HabitHeatmap.tsx:25-97 | a future cell does nothing; a non-completed past or present day is toggled, becomes completed, and nothing else changes; a completed day leaves the store unchanged and selects the day for the detail modal |
| Heatmap.ClickLeavesDayCompleted | src/components/HabitHeatmap.tsx:68-72 | after a click on a past or present day, that day is completed |
| Themes.ThemeTableContents | src/lib/habit-themes.ts:17-108 | `HABIT_THEMES` has exactly the keys blue, green, purple, orange, pink and indigo, each with its display name, primary colour and five intensity classes |
| Themes.DefaultThemeIsBlue | src/lib/habit-themes.ts:110 | `DEFAULT_THEME` is `blue` and names the blue palette of the table |
| Themes.ToLower | src/lib/habit-themes.ts:113 | same length; each letter lower-cased |
| Themes.KeysAreLowerCase | src/lib/habit-themes.ts:17-108 | every table key (blue, green, purple, orange, pink, indigo) is already lower-case |
| Themes.LookupKey | src/lib/habit-themes.ts:113 | the key looked up is never empty |
| Themes.GetTheme | src/lib/habit-themes.ts:110-114 | total: always an entry of the table; absent, empty or unknown names give the `blue` theme; a known key in any case gives its own entry |
| Themes.GetThemeCaseInsensitive | src/lib/habit-themes.ts:113 | a name and its lower-case form select the same theme |
| Themes.GetThemeKnownKey | src/lib/habit-themes.ts:113 | a name lower-casing to a known key, and the key itself, select exactly that key's entry |
| Themes.GetThemeExamples | src/lib/habit-themes.ts:17-114 | `"Green"` selects green, `"INDIGO"` indigo, while `"teal"` and an absent name select blue |
| Themes.ObjectIndex | src/lib/habit-themes.ts:113 | indexing the theme object yields a theme iff the key is a table key, and undefined iff it is neither a table key nor an inherited member name |
| Themes.GetThemeAsWritten | src/lib/habit-themes.ts:112-114 | the object lookup as written never yields undefined, but it can yield an inherited member |
| Themes.AsWrittenAgreesOffPrototype | src/lib/habit-themes.ts:113 | unless the lower-cased name is an inherited member's name, the object lookup returns exactly `GetTheme`'s theme |
| Themes.AsWrittenReturnsInheritedMember | src/lib/habit-themes.ts:113 | the name `"Constructor"` makes the object lookup return the inherited `constructor` member, where `GetTheme` returns `blue` |

## Left out

- Persistence: the `zustand` store container, the persist middleware and `localStorage` are left out. Each action is a pure state transition instead.
- Id generation (`crypto.randomUUID`, `Math.random`), `Date.now()` and `new Date()` are parameters. These are the fresh id, `createdAt`, `now` and `today`.
- Dates are day numbers. `date-fns` formatting, time zones and daylight-saving transitions are left out. The heatmap's `day > today` compares a midnight with the current instant; on day numbers that is `day > today`.
- File import and export (`src/utils/storage.ts`) is left out. Its check that `habits` and `checkIns` are present becomes the caller's duty in `ImportData`. The invariant lemma for action sequences requires imported check-ins to be well-formed.
- The form, modal, settings and page components are UI only and are left out. This includes the form's non-empty-name check. The longest streak and completion rate are computed in the habit detail page, which is not part of this model.
- HabitStore.SetCheckInValue: `value` is an integer. A JavaScript number can also be fractional or NaN, and those cases are not modelled.
- HabitStore.UpdateHabit: a patch field is either absent or a value. A patch that explicitly sets a field to `undefined` is not modelled.
- Themes.ToLower: only the ASCII letters are lower-cased. `toLowerCase` also maps other Unicode letters, for example the Kelvin sign to `k`.
- The heatmap's visual output is left out: colours, pattern overlays, intensity buckets and titles.

Behaviours of the code worth knowing:

- `reorderHabits` installs any list without checking its id set.
- `setCheckInValue` does not clamp a negative value. The value is kept, with the day marked not completed, only when the day has a note; otherwise the entry is removed.
- The streak walk has no lower bound. It terminates because a finite map has finitely many completed days.
- A stray record after today still shows as completed in its future heatmap cell. It cannot be clicked, and it never changes the streak.

## Findings

| source | as written | input that shows it | evidently intended | confidence | as-written member | corrected member |
|---|---|---|---|---|---|---|
| src/lib/habit-themes.ts:113 | `HABIT_THEMES[name.toLowerCase()]` indexes a plain object, so names of inherited `Object.prototype` members are found too, and they are truthy, so the fallback does not apply | theme name `"Constructor"` (or `"constructor"`, `"__proto__"`), e.g. from an imported file | only the six own keys are looked up; every other name falls back to `blue` | not executed; the lookup rules of plain objects make it very likely | Themes.AsWrittenReturnsInheritedMember | Themes.GetTheme |

=== FILE: habit_card.dfy ===
/**
 * The habit card's derived values: the 7-day strip and the current streak,
 * computed from one habit's day map and an injected "today".
 */
module HabitCard {
  import opened HabitTypes
  import HabitStore

  // ---------------------------------------------------------------------------
  // The 7-day strip
  // ---------------------------------------------------------------------------

  /** `subDays(today, 6 - i)` for i = 0..6. */
  function Last7Days(today: Day): (days: seq<Day>)
    ensures |days| == 7 && days[6] == today
    ensures forall i :: 0 <= i < 6 ==> days[i + 1] == days[i] + 1
    ensures forall d :: d in days <==> today - 6 <= d <= today
  {
    var days := seq(7, i requires 0 <= i < 7 => today - (6 - i));
    assert forall d :: d in days <==> today - 6 <= d <= today by {
      forall d | today - 6 <= d <= today
        ensures d in days
      {
        assert days[d - (today - 6)] == d;
      }
    }
    days
  }

  datatype StripCell = StripCell(day: Day, completed: bool, isToday: bool)

  /** The strip's buttons, oldest first; only the last one is today. */
  function WeekStrip(m: HabitCheckIns, today: Day): (cells: seq<StripCell>)
    ensures |cells| == 7
    ensures forall i :: 0 <= i < 7 ==> cells[i].day == Last7Days(today)[i]
    ensures forall i :: 0 <= i < 7 ==> (cells[i].completed <==> IsCompleted(m, cells[i].day))
    ensures forall i :: 0 <= i < 7 ==> (cells[i].isToday <==> i == 6)
  {
    var days := Last7Days(today);
    seq(7, i requires 0 <= i < 7 => StripCell(days[i], IsCompleted(m, days[i]), days[i] == today))
  }

  // ---------------------------------------------------------------------------
  // Runs of completed days
  // ---------------------------------------------------------------------------

  /** The completed days of a map; a finite set, since the map is finite. */
  function CompletedDays(m: HabitCheckIns): set<Day> {
    set d | d in m && m[d].completed
  }

  /** The completed days up to and including `d`: shrinks strictly as a backward walk passes a completed day. */
  function CompletedUpTo(m: HabitCheckIns, d: Day): (r: set<Day>)
    ensures r <= CompletedDays(m)
  {
    set k | k in m && m[k].completed && k <= d
  }

  lemma StepBack(m: HabitCheckIns, d: Day)
    requires IsCompleted(m, d)
    ensures CompletedUpTo(m, d) == CompletedUpTo(m, d - 1) + {d}
    ensures d !in CompletedUpTo(m, d - 1)
    ensures |CompletedUpTo(m, d - 1)| < |CompletedUpTo(m, d)|
  {
  }

  lemma SubsetCard(a: set<Day>, b: set<Day>)
    requires a <= b
    ensures |a| <= |b|
  {
    assert b == a + (b - a);
  }

  /**
   * The length of the run of completed days ending at `d`: every day of
   * `(d - n, d]` is completed and day `d - n` is not.
   */
  function RunLength(m: HabitCheckIns, d: Day): (n: nat)
    ensures forall k :: d - n < k <= d ==> IsCompleted(m, k)
    ensures !IsCompleted(m, d - n)
    ensures n <= |CompletedUpTo(m, d)|
    decreases CompletedUpTo(m, d)
  {
    if IsCompleted(m, d) then
      StepBack(m, d);
      1 + RunLength(m, d - 1)
    else
      0
  }

  /**
   * The run is determined by its two defining facts: a shorter `n` would end
   * on a completed day inside the run, a longer one would step over its gap.
   */
  lemma RunLengthUnique(m: HabitCheckIns, d: Day, n: nat)
    requires forall k :: d - n < k <= d ==> IsCompleted(m, k)
    requires !IsCompleted(m, d - n)
    ensures RunLength(m, d) == n
  {
  }

  /** A run ending at `d` looks only at days up to `d`: later records cannot change it. */
  lemma RunLengthLocal(m1: HabitCheckIns, m2: HabitCheckIns, d: Day)
    requires forall k :: k <= d ==> (IsCompleted(m1, k) <==> IsCompleted(m2, k))
    ensures RunLength(m1, d) == RunLength(m2, d)
  {
    RunLengthUnique(m2, d, RunLength(m1, d));
  }

  // ---------------------------------------------------------------------------
  // The current streak
  // ---------------------------------------------------------------------------

  /** The walk starts at today when today is completed, otherwise at yesterday. */
  function StreakStart(m: HabitCheckIns, today: Day): (start: Day)
    ensures IsCompleted(m, today) ==> start == today
    ensures !IsCompleted(m, today) ==> start == today - 1
  {
    if IsCompleted(m, today) then today else today - 1
  }

  /**
   * The current streak: the run of completed days ending at today, or at
   * yesterday when today is not completed yet.
   */
  function CurrentStreak(m: HabitCheckIns, today: Day): (n: nat)
    ensures var start := StreakStart(m, today);
      && (forall k :: start - n < k <= start ==> IsCompleted(m, k))
      && !IsCompleted(m, start - n)
    ensures n == 0 <==> !IsCompleted(m, today) && !IsCompleted(m, today - 1)
    ensures !IsCompleted(m, today) ==> n == RunLength(m, today - 1)
    ensures n <= |CompletedDays(m)|
  {
    var start := StreakStart(m, today);
    SubsetCard(CompletedUpTo(m, start), CompletedDays(m));
    RunLength(m, start)
  }

  /**
   * The card's loop: step back one day at a time while the day is
   * completed. It terminates on every (finite) map, because each step
   * passes one more completed day.
   */
  method ComputeCurrentStreak(m: HabitCheckIns, today: Day) returns (streak: nat)
    ensures var start := StreakStart(m, today);
      && (forall k :: start - streak < k <= start ==> IsCompleted(m, k))
      && !IsCompleted(m, start - streak)
    ensures streak == CurrentStreak(m, today)
  {
    streak := 0;
    var checkDate := today;
    if !IsCompleted(m, today) {
      checkDate := today - 1;
    }
    ghost var start := checkDate;
    while true
      invariant checkDate == start - streak
      invariant forall k :: checkDate < k <= start ==> IsCompleted(m, k)
      decreases |CompletedUpTo(m, checkDate)|
    {
      if IsCompleted(m, checkDate) {
        StepBack(m, checkDate);
        streak := streak + 1;
        checkDate := checkDate - 1;
      } else {
        break;
      }
    }
    RunLengthUnique(m, start, streak);
  }

  /** A stray record after today never changes the current streak. */
  lemma CurrentStreakIgnoresFuture(m1: HabitCheckIns, m2: HabitCheckIns, today: Day)
    requires forall k :: k <= today ==> (IsCompleted(m1, k) <==> IsCompleted(m2, k))
    ensures CurrentStreak(m1, today) == CurrentStreak(m2, today)
  {
    RunLengthLocal(m1, m2, StreakStart(m1, today));
  }

  /** Checking in an unchecked today adds exactly one to the streak. */
  lemma CheckingInTodayExtendsStreak(s: HabitStore.State, habitId: HabitId, today: Day, now: Timestamp)
    requires !IsCompleted(Inner(s.checkIns, habitId), today)
    ensures var m := Inner(s.checkIns, habitId);
      var m' := Inner(HabitStore.ToggleCheckIn(s, habitId, today, now).checkIns, habitId);
      CurrentStreak(m', today) == CurrentStreak(m, today) + 1
  {
    var m := Inner(s.checkIns, habitId);
    var r := HabitStore.ToggleCheckIn(s, habitId, today, now);
    var m' := r.checkIns[habitId];
    forall k | k <= today - 1
      ensures IsCompleted(m, k) <==> IsCompleted(m', k)
    {
      assert k in m' <==> k in m' - {today};
      assert k in m <==> k in m - {today};
      if k in m' {
        assert m'[k] == (m' - {today})[k];
      }
    }
    RunLengthLocal(m, m', today - 1);
  }

  /** Completed days 1, 2, 3 and 5, day 4 missing. */
  const ExampleHistory: HabitCheckIns := map[
    1 := CheckIn(true, Some(1), None, 0),
    2 := CheckIn(true, Some(1), None, 0),
    3 := CheckIn(true, Some(1), None, 0),
    5 := CheckIn(true, Some(1), None, 0)
  ]

  /** With today = day 5 the streak is 1: day 4 breaks it. */
  lemma StreakExampleToday()
    ensures CurrentStreak(ExampleHistory, 5) == 1
  {
    assert IsCompleted(ExampleHistory, 5) && !IsCompleted(ExampleHistory, 4);
    RunLengthUnique(ExampleHistory, 5, 1);
  }

  /** With today = day 6 and no record that day, the walk starts at day 5 and the streak is still 1. */
  lemma StreakExampleYesterday()
    ensures CurrentStreak(ExampleHistory, 6) == 1
  {
    assert !IsCompleted(ExampleHistory, 6);
    assert IsCompleted(ExampleHistory, 5) && !IsCompleted(ExampleHistory, 4);
    RunLengthUnique(ExampleHistory, 5, 1);
  }

  /** With today = day 4 (unchecked) the streak is the run of days 1..3. */
  lemma StreakExampleRun()
    ensures CurrentStreak(ExampleHistory, 4) == 3
  {
    assert !IsCompleted(ExampleHistory, 4);
    assert IsCompleted(ExampleHistory, 3) && IsCompleted(ExampleHistory, 2) && IsCompleted(ExampleHistory, 1);
    assert !IsCompleted(ExampleHistory, 0);
    RunLengthUnique(ExampleHistory, 3, 3);
  }

  /** With neither today (day 8) nor yesterday (day 7) completed the streak is 0. */
  lemma StreakExampleBroken()
    ensures CurrentStreak(ExampleHistory, 8) == 0
  {
    assert !IsCompleted(ExampleHistory, 8) && !IsCompleted(ExampleHistory, 7);
  }
}

=== FILE: heatmap.dfy ===
/**
 * The habit heatmap: a window of 16 Sunday-to-Saturday weeks ending with the
 * week that contains today, one cell per day, and what a click on a cell does.
 */
module Heatmap {
  import opened HabitTypes
  import HabitStore

  const WeeksShown: nat := 16

  /** Column headers, in the order of the grid's rows. */
  const WeekdayLabels: seq<string> := ["Sun", "Mon", "Tue", "Wed", "Thu", "Fri", "Sat"]

  /** 0 = Sunday ... 6 = Saturday. */
  function Weekday(d: Day): (w: nat)
    ensures w < 7
  {
    d % 7
  }

  /** The Sunday on or before `d` (`startOfWeek`, weeks starting on Sunday). */
  function StartOfWeek(d: Day): (r: Day)
    ensures Weekday(r) == 0
    ensures r <= d < r + 7
  {
    d - Weekday(d)
  }

  /** The Saturday on or after `d` (`endOfWeek`). */
  function EndOfWeek(d: Day): (r: Day)
    ensures Weekday(r) == 6
    ensures r - 7 < d <= r
  {
    StartOfWeek(d) + 6
  }

  /** `startOfWeek(subWeeks(today, 15))`. */
  function WindowStart(today: Day): Day {
    StartOfWeek(today - 7 * (WeeksShown - 1))
  }

  /** `endOfWeek(today)`. */
  function WindowEnd(today: Day): Day {
    EndOfWeek(today)
  }

  /** Where today sits in the window: the first 15 weeks, then its weekday. */
  function TodayIndex(today: Day): nat {
    7 * (WeeksShown - 1) + Weekday(today)
  }

  /**
   * `eachDayOfInterval({start, end})`: 112 consecutive days, from a Sunday
   * to a Saturday, so that day i falls in grid column i / 7 and in the row
   * of its weekday label.
   */
  function WindowDays(today: Day): (days: seq<Day>)
    ensures |days| == 7 * WeeksShown == 112
    ensures days[0] == WindowStart(today) && days[|days| - 1] == WindowEnd(today)
    ensures forall i :: 0 <= i < |days| - 1 ==> days[i + 1] == days[i] + 1
    ensures forall i :: 0 <= i < |days| ==> Weekday(days[i]) == i % 7
    ensures WeekdayLabels[Weekday(days[0])] == "Sun" && WeekdayLabels[Weekday(days[|days| - 1])] == "Sat"
    ensures TodayIndex(today) < |days| && days[TodayIndex(today)] == today
  {
    var start := WindowStart(today);
    assert start == StartOfWeek(today) - 105 by {
      assert (today - 105) % 7 == today % 7;
    }
    var days := seq(WindowEnd(today) - start + 1, i requires 0 <= i => start + i);
    assert forall i :: 0 <= i < |days| ==> Weekday(days[i]) == i % 7 by {
      forall i | 0 <= i < |days|
        ensures Weekday(start + i) == i % 7
      {
        assert (start + i) % 7 == i % 7 by {
          assert start % 7 == 0;
        }
      }
    }
    days
  }

  /** Today is always shown. */
  lemma TodayInWindow(today: Day)
    ensures today in WindowDays(today)
    ensures WindowStart(today) <= today <= WindowEnd(today)
  {
    var days := WindowDays(today);
    assert days[TodayIndex(today)] == today;
  }

  /** One rendered day: completion and note come from that habit's record alone. */
  datatype HeatCell = HeatCell(day: Day, completed: bool, hasNote: bool, isToday: bool, isFuture: bool)

  function Cell(m: HabitCheckIns, d: Day, today: Day): HeatCell {
    HeatCell(d, IsCompleted(m, d), d in m && HasNote(m[d].note), d == today, d > today)
  }

  /**
   * The heatmap's cells for a habit. A cell is future iff it comes after
   * today's cell, i.e. iff its day is after today; a habit with no day map
   * shows every cell empty.
   */
  function HeatmapCells(checkIns: CheckInsMap, habitId: HabitId, today: Day): (cells: seq<HeatCell>)
    ensures |cells| == 112
    ensures forall i :: 0 <= i < |cells| ==> cells[i].day == WindowDays(today)[i]
    ensures forall i :: 0 <= i < |cells| ==> (cells[i].isFuture <==> i > TodayIndex(today))
    ensures forall i :: 0 <= i < |cells| ==> (cells[i].isToday <==> i == TodayIndex(today))
    ensures forall i :: 0 <= i < |cells| ==>
      (cells[i].completed <==> habitId in checkIns && IsCompleted(checkIns[habitId], cells[i].day))
    ensures forall i :: 0 <= i < |cells| ==>
      (cells[i].hasNote <==> habitId in checkIns && cells[i].day in checkIns[habitId]
                             && HasNote(checkIns[habitId][cells[i].day].note))
  {
    var m := Inner(checkIns, habitId);
    var days := WindowDays(today);
    var cells := seq(|days|, i requires 0 <= i < |days| => Cell(m, days[i], today));
    assert forall i :: 0 <= i < |days| ==> days[i] == days[0] + i by {
      forall i | 0 <= i < |days|
        ensures days[i] == days[0] + i
      {
        DaysAreConsecutive(days, i);
      }
    }
    cells
  }

  lemma {:induction false} DaysAreConsecutive(days: seq<Day>, i: nat)
    requires forall j :: 0 <= j < |days| - 1 ==> days[j + 1] == days[j] + 1
    requires i < |days|
    ensures days[i] == days[0] + i
    decreases i
  {
    if i > 0 {
      DaysAreConsecutive(days, i - 1);
    }
  }

  /**
   * The cells split at today's: everything up to today is clickable and the
   * `6 - weekday(today)` cells after it, the rest of today's week, are future.
   */
  lemma FutureCellsEndTheWindow(checkIns: CheckInsMap, habitId: HabitId, today: Day)
    ensures var cells := HeatmapCells(checkIns, habitId, today); var k := TodayIndex(today);
      && (forall c :: c in cells[..k + 1] ==> !c.isFuture)
      && (forall c :: c in cells[k + 1..] ==> c.isFuture)
      && |cells[k + 1..]| == 6 - Weekday(today)
  {
    var cells := HeatmapCells(checkIns, habitId, today);
    var k := TodayIndex(today);
    forall c | c in cells[..k + 1]
      ensures !c.isFuture
    {
      var i :| 0 <= i < k + 1 && cells[..k + 1][i] == c;
      assert cells[i] == c;
    }
    forall c | c in cells[k + 1..]
      ensures c.isFuture
    {
      var i :| 0 <= i < |cells| - (k + 1) && cells[k + 1..][i] == c;
      assert cells[k + 1 + i] == c;
    }
  }

  /** The UI state the click handler can change: the day whose detail modal is open. */
  datatype ClickResult = ClickResult(state: HabitStore.State, selected: Option<Day>)

  /**
   * A click on a cell. Future cells are disabled and do nothing; a
   * non-completed day is toggled (checked); a completed day only opens the
   * day's detail modal.
   */
  function HandleDayClick(s: HabitStore.State, habitId: HabitId, d: Day, today: Day,
                          now: Timestamp, selected: Option<Day>): (r: ClickResult)
    ensures d > today ==> r == ClickResult(s, selected)
    ensures d <= today && IsCompleted(Inner(s.checkIns, habitId), d) ==> r == ClickResult(s, Some(d))
    ensures d <= today && !IsCompleted(Inner(s.checkIns, habitId), d) ==>
      && r.selected == selected
      && HabitStore.OnlyTouches(s, r.state, habitId, d)
      && IsCompleted(r.state.checkIns[habitId], d)
  {
    if d > today then ClickResult(s, selected)
    else if !IsCompleted(Inner(s.checkIns, habitId), d) then
      ClickResult(HabitStore.ToggleCheckIn(s, habitId, d, now), selected)
    else ClickResult(s, Some(d))
  }

  /** A click never un-checks a day: afterwards a past or present day is completed. */
  lemma ClickLeavesDayCompleted(s: HabitStore.State, habitId: HabitId, d: Day, today: Day,
                                now: Timestamp, selected: Option<Day>)
    requires d <= today
    ensures IsCompleted(Inner(HandleDayClick(s, habitId, d, today, now, selected).state.checkIns, habitId), d)
  {
  }
}

=== FILE: store.dfy ===
/**
 * The habit store: the `habits` list and the check-in map, with every store
 * action written as a pure transition from one state to the next.
 *
 * The store's sources of non-determinism are parameters here: the fresh id
 * of a new habit, its creation instant, and the clock reading `now` that
 * stamps a written check-in.
 */
module HabitStore {
  import opened HabitTypes

  datatype State = State(habits: seq<Habit>, checkIns: CheckInsMap)

  const Empty: State := State([], map[])

  // ---------------------------------------------------------------------------
  // Invariant kept by the check-in actions
  // ---------------------------------------------------------------------------

  /**
   * Every stored record is live (completed or noted: empty state is stored
   * as absence) and its `completed` flag agrees with its value.
   */
  ghost predicate WellFormed(checkIns: CheckInsMap) {
    forall h, d :: h in checkIns && d in checkIns[h] ==>
      Live(checkIns[h][d]) && Consistent(checkIns[h][d])
  }

  ghost predicate Inv(s: State) {
    WellFormed(s.checkIns)
  }

  /**
   * `r` differs from `s` at most in the record of `habitId` on day `d`:
   * the habit list, every other habit's map and every other day of this
   * habit are unchanged, and the habit now has a map.
   */
  ghost predicate OnlyTouches(s: State, r: State, habitId: HabitId, d: Day) {
    && r.habits == s.habits
    && habitId in r.checkIns
    && r.checkIns - {habitId} == s.checkIns - {habitId}
    && r.checkIns[habitId] - {d} == Inner(s.checkIns, habitId) - {d}
  }

  // ---------------------------------------------------------------------------
  // Habit list actions
  // ---------------------------------------------------------------------------

  /** `habitData.theme || 'blue'`: an absent or empty theme becomes blue. */
  function ThemeOrDefault(theme: Option<string>): (t: string)
    ensures t != ""
    ensures theme.Some? && theme.value != "" ==> t == theme.value
    ensures theme == None || theme == Some("") ==> t == "blue"
  {
    if theme.Some? && theme.value != "" then theme.value else "blue"
  }

  /** Appends one new habit with the given fresh id and creation instant. */
  function AddHabit(s: State, data: HabitData, id: HabitId, createdAt: string): (r: State)
    ensures r.checkIns == s.checkIns
    ensures |r.habits| == |s.habits| + 1
    ensures r.habits[..|s.habits|] == s.habits
    ensures var h := r.habits[|s.habits|];
      && h.id == id && h.createdAt == createdAt && !h.archived
      && h.name == data.name && h.frequency == data.frequency
      && h.color == data.color && h.pattern == data.pattern
      && h.theme.Some? && h.theme.value != ""
      && (data.theme.Some? && data.theme.value != "" ==> h.theme == data.theme)
      && (data.theme == None || data.theme == Some("") ==> h.theme == Some("blue"))
  {
    var h := Habit(id, data.name, data.frequency, data.color,
                   Some(ThemeOrDefault(data.theme)), data.pattern, createdAt, false);
    State(s.habits + [h], s.checkIns)
  }

  function Pick<T>(p: Option<T>, current: T): T {
    if p.Some? then p.value else current
  }

  /** `{ ...h, ...updates }`: every field present in the patch overwrites the habit's. */
  function Merge(h: Habit, p: HabitPatch): (r: Habit)
    ensures r.id == (if p.id.Some? then p.id.value else h.id)
    ensures r.name == (if p.name.Some? then p.name.value else h.name)
    ensures r.frequency == (if p.frequency.Some? then p.frequency.value else h.frequency)
    ensures r.color == (if p.color.Some? then p.color.value else h.color)
    ensures r.theme == (if p.theme.Some? then p.theme else h.theme)
    ensures r.pattern == (if p.pattern.Some? then p.pattern.value else h.pattern)
    ensures r.createdAt == (if p.createdAt.Some? then p.createdAt.value else h.createdAt)
    ensures r.archived == (if p.archived.Some? then p.archived.value else h.archived)
    ensures p == HabitPatch(None, None, None, None, None, None, None, None) ==> r == h
  {
    Habit(
      Pick(p.id, h.id),
      Pick(p.name, h.name),
      Pick(p.frequency, h.frequency),
      Pick(p.color, h.color),
      if p.theme.Some? then p.theme else h.theme,
      Pick(p.pattern, h.pattern),
      Pick(p.createdAt, h.createdAt),
      Pick(p.archived, h.archived))
  }

  /** Merges the patch into every habit whose id matches; the others are untouched. */
  function UpdateHabit(s: State, id: HabitId, p: HabitPatch): (r: State)
    ensures r.checkIns == s.checkIns
    ensures |r.habits| == |s.habits|
    ensures forall i :: 0 <= i < |s.habits| && s.habits[i].id != id ==> r.habits[i] == s.habits[i]
    ensures forall i :: 0 <= i < |s.habits| && s.habits[i].id == id ==> r.habits[i] == Merge(s.habits[i], p)
  {
    State(seq(|s.habits|, i requires 0 <= i < |s.habits| =>
            if s.habits[i].id == id then Merge(s.habits[i], p) else s.habits[i]),
          s.checkIns)
  }

  /** `habits.filter(h => h.id !== id)`. */
  function RemoveById(hs: seq<Habit>, id: HabitId): (r: seq<Habit>)
    ensures forall h :: h in r <==> h in hs && h.id != id
    ensures |r| <= |hs|
  {
    if |hs| == 0 then []
    else if hs[0].id == id then RemoveById(hs[1..], id)
    else [hs[0]] + RemoveById(hs[1..], id)
  }

  /** Removes the habit and, in the same step, its whole check-in map. */
  function DeleteHabit(s: State, id: HabitId): (r: State)
    ensures forall h :: h in r.habits <==> h in s.habits && h.id != id
    ensures id !in r.checkIns
    ensures forall h :: h != id ==> (h in r.checkIns <==> h in s.checkIns)
    ensures forall h :: h in r.checkIns ==> r.checkIns[h] == s.checkIns[h]
  {
    State(RemoveById(s.habits, id), s.checkIns - {id})
  }

  /** Replaces the habit list with the given order, as given; check-ins are untouched. */
  function ReorderHabits(s: State, newOrder: seq<Habit>): (r: State)
    ensures r.habits == newOrder && r.checkIns == s.checkIns
  {
    State(newOrder, s.checkIns)
  }

  // ---------------------------------------------------------------------------
  // Check-in actions
  // ---------------------------------------------------------------------------

  /** The note of the current record (`currentCheckIn?.note`). */
  function NoteOf(m: HabitCheckIns, d: Day): Option<string> {
    if d in m then m[d].note else None
  }

  /**
   * Tombstone by absence: a record that is neither completed nor noted is
   * deleted from the day map; any other record is stored.
   */
  function Put(m: HabitCheckIns, d: Day, c: CheckIn): (r: HabitCheckIns)
    ensures d in r <==> Live(c)
    ensures d in r ==> r[d] == c
    ensures r - {d} == m - {d}
  {
    if !Live(c) then m - {d} else m[d := c]
  }

  /** Stores `c` for `(habitId, d)` under the tombstone rule, replacing the habit's map. */
  function Write(s: State, habitId: HabitId, d: Day, c: CheckIn): (r: State)
    ensures OnlyTouches(s, r, habitId, d)
    ensures d in r.checkIns[habitId] <==> Live(c)
    ensures d in r.checkIns[habitId] ==> r.checkIns[habitId][d] == c
  {
    State(s.habits, s.checkIns[habitId := Put(Inner(s.checkIns, habitId), d, c)])
  }

  /** Flips completion: completed becomes (false, 0), anything else (true, 1); the note is kept. */
  function ToggleCheckIn(s: State, habitId: HabitId, d: Day, now: Timestamp): (r: State)
    ensures OnlyTouches(s, r, habitId, d)
    ensures var m := Inner(s.checkIns, habitId); var m' := r.checkIns[habitId];
      && (IsCompleted(m', d) <==> !IsCompleted(m, d))
      && (d in m' <==> !IsCompleted(m, d) || HasNote(NoteOf(m, d)))
      && (!IsCompleted(m, d) ==> m'[d] == CheckIn(true, Some(1), NoteOf(m, d), now))
      && (IsCompleted(m, d) && HasNote(NoteOf(m, d)) ==> m'[d] == CheckIn(false, Some(0), NoteOf(m, d), now))
  {
    var m := Inner(s.checkIns, habitId);
    var wasCompleted := IsCompleted(m, d);
    var c := CheckIn(!wasCompleted, Some(if wasCompleted then 0 else 1), NoteOf(m, d), now);
    Write(s, habitId, d, c)
  }

  /** Stores the value as given (no clamping); completion is `value > 0`; the note is kept. */
  function SetCheckInValue(s: State, habitId: HabitId, d: Day, value: int, now: Timestamp): (r: State)
    ensures OnlyTouches(s, r, habitId, d)
    ensures var m := Inner(s.checkIns, habitId); var m' := r.checkIns[habitId];
      && (d in m' <==> value > 0 || HasNote(NoteOf(m, d)))
      && (d in m' ==> m'[d] == CheckIn(value > 0, Some(value), NoteOf(m, d), now))
  {
    var m := Inner(s.checkIns, habitId);
    Write(s, habitId, d, CheckIn(value > 0, Some(value), NoteOf(m, d), now))
  }

  /**
   * Replaces the note of the day's record, creating `{completed: false,
   * value: 0}` when there is none; completion and value are kept.
   */
  function UpdateNote(s: State, habitId: HabitId, d: Day, note: string, now: Timestamp): (r: State)
    ensures OnlyTouches(s, r, habitId, d)
    ensures var m := Inner(s.checkIns, habitId); var m' := r.checkIns[habitId];
      && (d in m' <==> IsCompleted(m, d) || note != "")
      && (d in m' && d in m ==> m'[d] == m[d].(note := Some(note), timestamp := now))
      && (d in m' && d !in m ==> m'[d] == CheckIn(false, Some(0), Some(note), now))
  {
    var m := Inner(s.checkIns, habitId);
    var current := if d in m then m[d] else CheckIn(false, Some(0), None, now);
    Write(s, habitId, d, current.(note := Some(note), timestamp := now))
  }

  // ---------------------------------------------------------------------------
  // Whole-state actions
  // ---------------------------------------------------------------------------

  /** Destructive overwrite with an already validated payload; nothing is merged. */
  function ImportData(s: State, habits: seq<Habit>, checkIns: CheckInsMap): (r: State)
    ensures r.habits == habits && r.checkIns == checkIns
  {
    State(habits, checkIns)
  }

  function ResetData(s: State): (r: State)
    ensures r.habits == [] && r.checkIns == map[]
  {
    Empty
  }
}

=== FILE: store_properties.dfy ===
/**
 * Properties of the habit store that relate several actions: the
 * tombstone/consistency invariant over any sequence of actions, toggling
 * twice, the order kept by delete, and the idempotence of update.
 */
module StoreProperties {
  import opened HabitTypes
  import opened HabitStore

  // ---------------------------------------------------------------------------
  // The invariant
  // ---------------------------------------------------------------------------

  /** Writing a consistent record keeps every stored record live and consistent. */
  lemma WritePreservesInv(s: State, habitId: HabitId, d: Day, c: CheckIn)
    requires Inv(s) && Consistent(c)
    ensures Inv(Write(s, habitId, d, c))
  {
    var r := Write(s, habitId, d, c);
    forall h, e | h in r.checkIns && e in r.checkIns[h]
      ensures Live(r.checkIns[h][e]) && Consistent(r.checkIns[h][e])
    {
      if h != habitId {
        assert h in r.checkIns - {habitId};
        assert r.checkIns[h] == (r.checkIns - {habitId})[h] == (s.checkIns - {habitId})[h];
      } else if e != d {
        assert e in r.checkIns[h] - {d};
        assert r.checkIns[h][e] == (Inner(s.checkIns, h) - {d})[e];
      }
    }
  }

  lemma ToggleCheckInPreservesInv(s: State, habitId: HabitId, d: Day, now: Timestamp)
    requires Inv(s)
    ensures Inv(ToggleCheckIn(s, habitId, d, now))
  {
    var m := Inner(s.checkIns, habitId);
    var wasCompleted := IsCompleted(m, d);
    WritePreservesInv(s, habitId, d, CheckIn(!wasCompleted, Some(if wasCompleted then 0 else 1), NoteOf(m, d), now));
  }

  lemma SetCheckInValuePreservesInv(s: State, habitId: HabitId, d: Day, value: int, now: Timestamp)
    requires Inv(s)
    ensures Inv(SetCheckInValue(s, habitId, d, value, now))
  {
    WritePreservesInv(s, habitId, d, CheckIn(value > 0, Some(value), NoteOf(Inner(s.checkIns, habitId), d), now));
  }

  lemma UpdateNotePreservesInv(s: State, habitId: HabitId, d: Day, note: string, now: Timestamp)
    requires Inv(s)
    ensures Inv(UpdateNote(s, habitId, d, note, now))
  {
    var m := Inner(s.checkIns, habitId);
    var current := if d in m then m[d] else CheckIn(false, Some(0), None, now);
    assert Consistent(current);
    WritePreservesInv(s, habitId, d, current.(note := Some(note), timestamp := now));
  }

  /** One store action, with its clock reading, fresh id or payload as data. */
  datatype Action =
    | AddHabitAction(data: HabitData, id: HabitId, createdAt: string)
    | UpdateHabitAction(id: HabitId, patch: HabitPatch)
    | DeleteHabitAction(id: HabitId)
    | ReorderHabitsAction(newOrder: seq<Habit>)
    | ToggleCheckInAction(habitId: HabitId, day: Day, now: Timestamp)
    | SetCheckInValueAction(habitId: HabitId, day: Day, value: int, now: Timestamp)
    | UpdateNoteAction(habitId: HabitId, day: Day, note: string, now: Timestamp)
    | ImportDataAction(habits: seq<Habit>, checkIns: CheckInsMap)
    | ResetDataAction

  function Step(s: State, a: Action): State {
    match a
    case AddHabitAction(data, id, createdAt) => AddHabit(s, data, id, createdAt)
    case UpdateHabitAction(id, patch) => UpdateHabit(s, id, patch)
    case DeleteHabitAction(id) => DeleteHabit(s, id)
    case ReorderHabitsAction(newOrder) => ReorderHabits(s, newOrder)
    case ToggleCheckInAction(habitId, day, now) => ToggleCheckIn(s, habitId, day, now)
    case SetCheckInValueAction(habitId, day, value, now) => SetCheckInValue(s, habitId, day, value, now)
    case UpdateNoteAction(habitId, day, note, now) => UpdateNote(s, habitId, day, note, now)
    case ImportDataAction(habits, checkIns) => ImportData(s, habits, checkIns)
    case ResetDataAction => ResetData(s)
  }

  /** The actions applied in order, each to the state the previous one committed. */
  function Run(s: State, actions: seq<Action>): State
    decreases |actions|
  {
    if |actions| == 0 then s else Run(Step(s, actions[0]), actions[1..])
  }

  /** An import is trusted: only a payload that already keeps the invariant keeps it. */
  ghost predicate ImportsWellFormed(actions: seq<Action>) {
    forall i :: 0 <= i < |actions| && actions[i].ImportDataAction? ==> WellFormed(actions[i].checkIns)
  }

  lemma StepPreservesInv(s: State, a: Action)
    requires Inv(s)
    requires a.ImportDataAction? ==> WellFormed(a.checkIns)
    ensures Inv(Step(s, a))
  {
    match a
    case ToggleCheckInAction(habitId, day, now) => ToggleCheckInPreservesInv(s, habitId, day, now);
    case SetCheckInValueAction(habitId, day, value, now) => SetCheckInValuePreservesInv(s, habitId, day, value, now);
    case UpdateNoteAction(habitId, day, note, now) => UpdateNotePreservesInv(s, habitId, day, note, now);
    case DeleteHabitAction(id) =>
      var r := DeleteHabit(s, id);
      forall h, e | h in r.checkIns && e in r.checkIns[h]
        ensures Live(r.checkIns[h][e]) && Consistent(r.checkIns[h][e])
      {
        assert r.checkIns[h] == s.checkIns[h];
      }
    case _ =>
  }

  /**
   * After every sequence of store actions, starting from a state that keeps
   * the invariant and importing only payloads that keep it, a record is
   * stored exactly when it is completed or noted, and `completed == value > 0`.
   */
  lemma {:induction false} RunPreservesInv(s: State, actions: seq<Action>)
    requires Inv(s)
    requires ImportsWellFormed(actions)
    ensures Inv(Run(s, actions))
    decreases |actions|
  {
    if |actions| > 0 {
      StepPreservesInv(s, actions[0]);
      assert ImportsWellFormed(actions[1..]) by {
        forall i | 0 <= i < |actions[1..]| && actions[1..][i].ImportDataAction?
          ensures WellFormed(actions[1..][i].checkIns)
        {
          assert actions[1..][i] == actions[i + 1];
        }
      }
      RunPreservesInv(Step(s, actions[0]), actions[1..]);
    }
  }

  lemma EmptyKeepsInv()
    ensures Inv(Empty) && Inv(ResetData(Empty))
  {
  }

  /**
   * Imports are trusted: one import of an uncompleted, un-noted record breaks
   * the invariant, even from the empty store.
   */
  lemma ImportCanBreakInv()
    ensures var bad := map["h" := map[0 := CheckIn(false, None, None, 0)]];
      Inv(Empty) && !Inv(Run(Empty, [ImportDataAction([], bad)]))
  {
    var bad := map["h" := map[0 := CheckIn(false, None, None, 0)]];
    assert !Live(bad["h"][0]);
  }

  /** Under the invariant, a day is stored exactly when it is completed or noted. */
  lemma StoredIffCompletedOrNoted(s: State, h: HabitId, d: Day)
    requires Inv(s) && h in s.checkIns
    ensures d in s.checkIns[h] <==> IsCompleted(s.checkIns[h], d) || HasNote(NoteOf(s.checkIns[h], d))
  {
  }

  // ---------------------------------------------------------------------------
  // Toggling twice
  // ---------------------------------------------------------------------------

  /**
   * Toggling the same day twice when it has no note restores its completion,
   * leaves no record when it was not completed, and changes no other day,
   * no other habit and no habit (the habit's map may be left empty).
   */
  lemma ToggleTwiceNoNote(s: State, habitId: HabitId, d: Day, t1: Timestamp, t2: Timestamp)
    requires !HasNote(NoteOf(Inner(s.checkIns, habitId), d))
    ensures var r := ToggleCheckIn(ToggleCheckIn(s, habitId, d, t1), habitId, d, t2);
      var m := Inner(s.checkIns, habitId);
      && r.habits == s.habits
      && r.checkIns - {habitId} == s.checkIns - {habitId}
      && r.checkIns[habitId] - {d} == m - {d}
      && (IsCompleted(r.checkIns[habitId], d) <==> IsCompleted(m, d))
      && (!IsCompleted(m, d) ==> r.checkIns[habitId] == m - {d})
  {
    var m := Inner(s.checkIns, habitId);
    var s1 := ToggleCheckIn(s, habitId, d, t1);
    var r := ToggleCheckIn(s1, habitId, d, t2);
    var m1 := s1.checkIns[habitId];
    assert Inner(s1.checkIns, habitId) == m1;
    if !IsCompleted(m, d) {
      assert m1[d] == CheckIn(true, Some(1), NoteOf(m, d), t1);
      assert !HasNote(NoteOf(m1, d));
      assert d !in r.checkIns[habitId];
      assert r.checkIns[habitId] == r.checkIns[habitId] - {d};
    }
  }

  // ---------------------------------------------------------------------------
  // Habit list actions
  // ---------------------------------------------------------------------------

  /** The filter keeps relative order: it distributes over concatenation. */
  lemma {:induction false} RemoveByIdAppend(a: seq<Habit>, b: seq<Habit>, id: HabitId)
    ensures RemoveById(a + b, id) == RemoveById(a, id) + RemoveById(b, id)
    decreases |a|
  {
    if |a| > 0 {
      assert (a + b)[0] == a[0];
      assert (a + b)[1..] == a[1..] + b;
      RemoveByIdAppend(a[1..], b, id);
    } else {
      assert a + b == b;
    }
  }

  /** Deleting an id no habit carries leaves the habit list unchanged. */
  lemma {:induction false} RemoveByIdAbsent(hs: seq<Habit>, id: HabitId)
    requires forall i :: 0 <= i < |hs| ==> hs[i].id != id
    ensures RemoveById(hs, id) == hs
    decreases |hs|
  {
    if |hs| > 0 {
      RemoveByIdAbsent(hs[1..], id);
      assert [hs[0]] + hs[1..] == hs;
    }
  }

  /** Adding a habit under a fresh id and then deleting that id restores the state. */
  lemma AddThenDelete(s: State, data: HabitData, id: HabitId, createdAt: string)
    requires forall i :: 0 <= i < |s.habits| ==> s.habits[i].id != id
    requires id !in s.checkIns
    ensures DeleteHabit(AddHabit(s, data, id, createdAt), id) == s
  {
    var r := AddHabit(s, data, id, createdAt);
    assert r.habits == s.habits + [r.habits[|s.habits|]];
    RemoveByIdAppend(s.habits, [r.habits[|s.habits|]], id);
    RemoveByIdAbsent(s.habits, id);
    assert RemoveById([r.habits[|s.habits|]], id) == [];
  }

  /** Deleting one id keeps every other habit, each exactly once per occurrence. */
  lemma {:induction false} RemoveByIdCount(hs: seq<Habit>, id: HabitId, h: Habit)
    requires h.id != id
    ensures multiset(RemoveById(hs, id))[h] == multiset(hs)[h]
    decreases |hs|
  {
    if |hs| > 0 {
      RemoveByIdCount(hs[1..], id, h);
      assert hs == [hs[0]] + hs[1..];
    }
  }

  /** An update for an id no habit carries changes nothing. */
  lemma UpdateHabitUnknownId(s: State, id: HabitId, p: HabitPatch)
    requires forall i :: 0 <= i < |s.habits| ==> s.habits[i].id != id
    ensures UpdateHabit(s, id, p) == s
  {
    assert UpdateHabit(s, id, p).habits == s.habits;
  }

  /** Merging the same patch twice is the same as merging it once. */
  lemma MergeIdempotent(h: Habit, p: HabitPatch)
    ensures Merge(Merge(h, p), p) == Merge(h, p)
  {
  }

  /** Applying the same update twice is the same as applying it once. */
  lemma UpdateHabitIdempotent(s: State, id: HabitId, p: HabitPatch)
    ensures UpdateHabit(UpdateHabit(s, id, p), id, p) == UpdateHabit(s, id, p)
  {
    var s1 := UpdateHabit(s, id, p);
    var s2 := UpdateHabit(s1, id, p);
    forall i | 0 <= i < |s.habits|
      ensures s2.habits[i] == s1.habits[i]
    {
      if s.habits[i].id == id {
        assert Merge(Merge(s.habits[i], p), p) == Merge(s.habits[i], p);
      }
    }
  }

  // ---------------------------------------------------------------------------
  // Whole-state replacement
  // ---------------------------------------------------------------------------

  /** Reorder does not check the id set: an order missing a habit drops that habit. */
  lemma ReorderDropsMissingHabit(s: State, newOrder: seq<Habit>, h: Habit)
    requires h in s.habits && h !in newOrder
    ensures h !in ReorderHabits(s, newOrder).habits
    ensures ReorderHabits(s, newOrder).checkIns == s.checkIns
  {
  }

  /** Import is a destructive overwrite: the result does not depend on the state it replaces. */
  lemma ImportIgnoresPriorState(s1: State, s2: State, habits: seq<Habit>, checkIns: CheckInsMap)
    ensures ImportData(s1, habits, checkIns) == ImportData(s2, habits, checkIns)
  {
  }

  /** Importing the collections a state holds (an export) gives back that state. */
  lemma ImportOfExportRoundTrip(s: State, t: State)
    ensures ImportData(t, s.habits, s.checkIns) == s
  {
  }

  /** Reset equals importing empty collections, so a reset store keeps the invariant. */
  lemma ResetIsEmptyImport(s: State)
    ensures ResetData(s) == ImportData(s, [], map[])
    ensures Inv(ResetData(s))
  {
  }
}

=== FILE: themes.dfy ===
/**
 * The colour themes a habit's visualisations can use, and the lookup from a
 * habit's (optional, free-form) theme name to a theme.
 */
module Themes {
  import opened HabitTypes

  /** A palette; `intensity[k]` is the class for bucket k (0 reps, 1-5, 6-10, 11-20, 20+). */
  datatype HabitTheme = HabitTheme(
    name: string,
    primaryColor: string,
    gradient: string,
    intensity: seq<string>,
    baseBg: string,
    lightText: string,
    darkText: string
  )

  const DefaultTheme: string := "blue"

  function Palette(name: string, key: string, primaryColor: string, gradientTo: string): HabitTheme {
    HabitTheme(
      name, primaryColor, "from-" + key + "-50 to-" + gradientTo + "-50",
      ["bg-gray-100 text-gray-400",
       "bg-" + key + "-200 text-" + key + "-800",
       "bg-" + key + "-300 text-" + key + "-900",
       "bg-" + key + "-400 text-" + key + "-900",
       "bg-" + key + "-500 text-white"],
      "bg-" + key + "-50", "text-" + key + "-600", "text-" + key + "-900")
  }

  /** The theme table, keyed by lower-case theme name. */
  const ThemeTable: map<string, HabitTheme> := map[
    "blue" := Palette("Blue", "blue", "#3b82f6", "indigo"),
    "green" := Palette("Green", "green", "#22c55e", "emerald"),
    "purple" := Palette("Purple", "purple", "#a855f7", "pink"),
    "orange" := Palette("Orange", "orange", "#f97316", "amber"),
    "pink" := Palette("Pink", "pink", "#ec4899", "rose"),
    "indigo" := Palette("Indigo", "indigo", "#6366f1", "blue")
  ]

  /** The table holds exactly the six named palettes, and the default names one of them. */
  lemma ThemeTableContents()
    ensures ThemeTable.Keys == {"blue", "green", "purple", "orange", "pink", "indigo"}
    ensures DefaultTheme in ThemeTable
    ensures forall k :: k in ThemeTable ==> |ThemeTable[k].intensity| == 5
    ensures ThemeTable["blue"].name == "Blue" && ThemeTable["blue"].primaryColor == "#3b82f6"
    ensures ThemeTable["green"].name == "Green" && ThemeTable["green"].primaryColor == "#22c55e"
    ensures ThemeTable["purple"].name == "Purple" && ThemeTable["purple"].primaryColor == "#a855f7"
    ensures ThemeTable["orange"].name == "Orange" && ThemeTable["orange"].primaryColor == "#f97316"
    ensures ThemeTable["pink"].name == "Pink" && ThemeTable["pink"].primaryColor == "#ec4899"
    ensures ThemeTable["indigo"].name == "Indigo" && ThemeTable["indigo"].primaryColor == "#6366f1"
  {
  }

  /** The default theme is the blue palette. */
  lemma DefaultThemeIsBlue()
    ensures DefaultTheme == "blue"
    ensures ThemeTable[DefaultTheme] == Palette("Blue", "blue", "#3b82f6", "indigo")
  {
  }

  // ---------------------------------------------------------------------------
  // Lower-casing
  // ---------------------------------------------------------------------------

  function LowerChar(c: char): char {
    if 'A' <= c <= 'Z' then (c as int - 'A' as int + 'a' as int) as char else c
  }

  /** `String.prototype.toLowerCase`, on the ASCII letters. */
  function ToLower(s: string): (r: string)
    ensures |r| == |s|
    ensures forall i :: 0 <= i < |s| ==> r[i] == LowerChar(s[i])
  {
    seq(|s|, i requires 0 <= i < |s| => LowerChar(s[i]))
  }

  lemma ToLowerIdempotent(s: string)
    ensures ToLower(ToLower(s)) == ToLower(s)
  {
    assert forall i :: 0 <= i < |s| ==> LowerChar(LowerChar(s[i])) == LowerChar(s[i]);
  }

  /** Every key of the table is already lower-case, so looking it up case-insensitively finds it. */
  lemma KeysAreLowerCase(k: string)
    requires k in ThemeTable
    ensures ToLower(k) == k
  {
    assert k == "blue" || k == "green" || k == "purple" || k == "orange" || k == "pink" || k == "indigo";
  }

  // ---------------------------------------------------------------------------
  // Lookup
  // ---------------------------------------------------------------------------

  /** The key looked up: `themeName?.toLowerCase() || DEFAULT_THEME`. */
  function LookupKey(themeName: Option<string>): (k: string)
    ensures k != ""
  {
    if themeName.Some? && ToLower(themeName.value) != "" then ToLower(themeName.value) else DefaultTheme
  }

  /**
   * The theme for a habit's theme name: total, case-insensitive, and falling
   * back to the default theme for an absent, empty or unknown name. Only the
   * table's own keys are consulted.
   */
  function GetTheme(themeName: Option<string>): (t: HabitTheme)
    ensures t in ThemeTable.Values
    ensures themeName == None || themeName == Some("") ==> t == ThemeTable[DefaultTheme]
    ensures themeName.Some? && ToLower(themeName.value) in ThemeTable ==> t == ThemeTable[ToLower(themeName.value)]
    ensures themeName.Some? && ToLower(themeName.value) !in ThemeTable ==> t == ThemeTable[DefaultTheme]
  {
    var k := LookupKey(themeName);
    if k in ThemeTable then ThemeTable[k] else ThemeTable[DefaultTheme]
  }

  /** Looking up a name and looking up its lower-case form give the same theme. */
  lemma GetThemeCaseInsensitive(name: string)
    ensures GetTheme(Some(name)) == GetTheme(Some(ToLower(name)))
  {
    ToLowerIdempotent(name);
  }

  /** A known key, in any letter case, selects exactly its own entry. */
  lemma GetThemeKnownKey(name: string, k: string)
    requires k in ThemeTable && ToLower(name) == k
    ensures GetTheme(Some(name)) == ThemeTable[k]
    ensures GetTheme(Some(k)) == ThemeTable[k]
  {
    KeysAreLowerCase(k);
  }

  lemma GetThemeExamples()
    ensures GetTheme(Some("Green")) == ThemeTable["green"]
    ensures GetTheme(Some("INDIGO")) == ThemeTable["indigo"]
    ensures GetTheme(Some("teal")) == ThemeTable["blue"]
    ensures GetTheme(None) == ThemeTable["blue"]
  {
    assert ToLower("Green") == "green";
    assert ToLower("INDIGO") == "indigo";
    assert ToLower("teal") == "teal";
  }

  // ---------------------------------------------------------------------------
  // The lookup as the source writes it: indexing a plain object
  // ---------------------------------------------------------------------------

  /** What indexing a plain JavaScript object by a string key can yield. */
  datatype JsValue = ThemeValue(theme: HabitTheme) | InheritedMember(key: string) | Undefined

  /** The property names every plain object inherits from `Object.prototype`. */
  const ObjectPrototypeKeys: set<string> := {
    "constructor", "__proto__", "hasOwnProperty", "isPrototypeOf",
    "propertyIsEnumerable", "toString", "toLocaleString", "valueOf",
    "__defineGetter__", "__defineSetter__", "__lookupGetter__", "__lookupSetter__"
  }

  /** `HABIT_THEMES[key]`: own keys first, then the inherited prototype members. */
  function ObjectIndex(key: string): (v: JsValue)
    ensures v.ThemeValue? <==> key in ThemeTable
    ensures v.Undefined? <==> key !in ThemeTable && key !in ObjectPrototypeKeys
  {
    if key in ThemeTable then ThemeValue(ThemeTable[key])
    else if key in ObjectPrototypeKeys then InheritedMember(key)
    else Undefined
  }

  /** `HABIT_THEMES[k] || HABIT_THEMES[DEFAULT_THEME]`: every object value is truthy. */
  function GetThemeAsWritten(themeName: Option<string>): (v: JsValue)
    ensures v.ThemeValue? || v.InheritedMember?
  {
    var v := ObjectIndex(LookupKey(themeName));
    if v.Undefined? then ObjectIndex(DefaultTheme) else v
  }

  /**
   * The object lookup agrees with `GetTheme` except on names that lower-case
   * to an inherited member's name.
   */
  lemma AsWrittenAgreesOffPrototype(themeName: Option<string>)
    requires LookupKey(themeName) !in ObjectPrototypeKeys
    ensures GetThemeAsWritten(themeName) == ThemeValue(GetTheme(themeName))
  {
  }

  /** The theme name "Constructor" makes the object lookup return a function instead of a theme. */
  lemma AsWrittenReturnsInheritedMember()
    ensures GetThemeAsWritten(Some("Constructor")) == InheritedMember("constructor")
    ensures GetTheme(Some("Constructor")) == ThemeTable[DefaultTheme]
  {
    assert ToLower("Constructor") == "constructor";
    assert "constructor" !in ThemeTable;
  }
}

=== FILE: types.dfy ===
/**
 * The data model of the habit tracker: habits, check-in records and the
 * two-level check-in map (habit id -> day -> record).
 *
 * Calendar dates are integer day numbers. Day 0 is a Sunday, so the weekday
 * of a day is `d % 7` with 0 = Sunday ... 6 = Saturday (Dafny's `%` is
 * Euclidean, so this also holds for days before day 0).
 */
module HabitTypes {

  datatype Option<+T> = None | Some(value: T)

  type HabitId = string

  /** A calendar day, counted from a Sunday. */
  type Day = int

  /** Milliseconds since the epoch, as returned by the clock. */
  type Timestamp = int

  datatype Frequency = Daily | Weekly | Monthly

  datatype Habit = Habit(
    id: HabitId,
    name: string,
    frequency: Frequency,
    color: string,
    theme: Option<string>,
    pattern: string,
    createdAt: string,
    archived: bool
  )

  /** The fields a caller supplies when adding a habit (no id, createdAt or archived). */
  datatype HabitData = HabitData(
    name: string,
    frequency: Frequency,
    color: string,
    theme: Option<string>,
    pattern: string
  )

  /** A partial habit: `Some` fields overwrite, `None` fields are left alone. */
  datatype HabitPatch = HabitPatch(
    id: Option<HabitId>,
    name: Option<string>,
    frequency: Option<Frequency>,
    color: Option<string>,
    theme: Option<string>,
    pattern: Option<string>,
    createdAt: Option<string>,
    archived: Option<bool>
  )

  /**
   * One day's record for one habit. `value` and `note` are optional fields
   * in the stored JSON, so a record read back from an import may lack them.
   */
  datatype CheckIn = CheckIn(
    completed: bool,
    value: Option<int>,
    note: Option<string>,
    timestamp: Timestamp
  )

  type HabitCheckIns = map<Day, CheckIn>

  type CheckInsMap = map<HabitId, HabitCheckIns>

  /** A note counts only when it is present and non-empty (`!note` is true for both undefined and ""). */
  predicate HasNote(note: Option<string>) {
    note.Some? && note.value != ""
  }

  /** A record is worth storing when it is completed or carries a note. */
  predicate Live(c: CheckIn) {
    c.completed || HasNote(c.note)
  }

  /** The record's value, an absent value reading as 0. */
  function ValueOrZero(c: CheckIn): (v: int)
    ensures c.value.None? ==> v == 0
    ensures c.value.Some? ==> v == c.value.value
  {
    if c.value.Some? then c.value.value else 0
  }

  /** `completed` agrees with the value, an absent value counting as 0. */
  predicate Consistent(c: CheckIn) {
    match c.value
    case Some(v) => c.completed == (v > 0)
    case None => !c.completed
  }

  /** A record is consistent exactly when it counts as completed iff its value is positive. */
  lemma ConsistentIffValuePositive(c: CheckIn)
    ensures Consistent(c) <==> (c.completed <==> ValueOrZero(c) > 0)
  {
  }

  /** The habit's day map, or the empty map when the habit has none (`checkIns[id] || {}`). */
  function Inner(checkIns: CheckInsMap, id: HabitId): (m: HabitCheckIns)
    ensures id !in checkIns ==> m == map[]
    ensures id in checkIns ==> m == checkIns[id]
  {
    if id in checkIns then checkIns[id] else map[]
  }

  /** `habitCheckIns[day]?.completed`, with a missing record reading as false. */
  predicate IsCompleted(m: HabitCheckIns, d: Day) {
    d in m && m[d].completed
  }
}
